=== FILE: README.md ===
# GSMServer — a Dafny model

This project models `GSMServer`, the listening TCP socket of the Arduino MKR GSM
library. The server drives a u-blox cellular modem through AT commands. It creates a
socket (`AT+USOCR=6`), puts it into listening mode (`AT+USOLI=<socket>,<port>`) and
closes it again (`AT+USOCL=<socket>`). The modem reports accepted and closed child
connections through unsolicited result codes (URCs): `+UUSOLI: ` and `+UUSOCL: `.
The server records these in a fixed table of child-socket slots. The application polls
that table through `available()` and writes to every child at once through `write()`.

The model is functional. The server is an immutable record (`GsmServer.Server`): the
listen port, the synchronous flag, the listening socket id (`-1` for none), the phase and
the child table. Each operation is a pure function from the old record and its inputs to
a new record and its outputs:

- `Ready` is one call of the non-blocking phase machine. It takes the modem's readiness
  code and the captured reply text. It returns the new server, the command sent during
  the call (at most one) and the return code.
- `Drive` and `Begin` repeat `Ready` over a finite sequence of modem replies. This is
  the synchronous `begin()` loop.
- `Stop`, `HandleUrc`, `Available` and `Write` (with the one-byte and NUL-terminated
  overloads) cover the rest of the public surface.

Modules:

| module | file | contents |
|---|---|---|
| `Wrappers` | wrappers.dfy | `Option` |
| `Search` | search.dfy | first-match search and counting, used for every table scan |
| `Decimal` | decimal.dfy | decimal text of integers, as appended to an Arduino `String`; `c - '0'` |
| `Commands` | commands.dfy | the three AT commands, their text, and a reader for that text |
| `ChildTable` | child_table.dfy | child slots, accept/release, the two-pass selection |
| `GsmServer` | server.dfy | the server record and its operations |
| `ServerProperties` | server_properties.dfy | lemmas relating several calls, and scenarios |

Representation choices:

- Strings are `seq<char>`.
- The `ch - '0'` of `GSMServer.cpp` is `Decimal.DigitValue`: a code point difference with
  no digit check.
- Arduino's `String::charAt` returns NUL past the end of the string. `GsmServer.CharAt`
  models this, so a URC of exactly `+UUSOLI: ` yields the id `'\0' - '0'`, which is -48.
- The readiness code is a full `int`, because `GSMServer.cpp` only compares it with `0` and
  `1`.
- `write` adds up `size_t` counts. The model wraps that sum modulo 2^32, the width of
  `size_t` on the 32-bit SAMD target.
- `MAX_CHILD_SOCKETS` is defined in `GSMServer.h`, which is not part of this model. The
  constructor uses 6. Every table property is proved for a table of any length.

## Model

| member | source | states |
|---|---|---|
| `GsmServer.New` | src/GSMServer.cpp:14-23 | a new server has no listening socket, is Idle, and has `MAX_CHILD_SOCKETS` slots, none occupied and none marked accepted |
| `GsmServer.Ready` | src/GSMServer.cpp:33-117 | with readiness 0 nothing changes and 0 is returned; the return is 0 or the readiness; a nonzero return leaves the server Idle; a call that sends a command returns 0; the phase moves only along the transition table; the child table and port are never touched; the listening id changes only in the two wait-for-reply phases |
| `ServerProperties.ReadyIdleOrNotReady` | src/GSMServer.cpp:35-45 | Idle, or readiness 0: nothing is sent or changed and the readiness is returned |
| `ServerProperties.ReadyCommandPhases` | src/GSMServer.cpp:47-107 | a command goes out exactly when readiness is nonzero in CREATE_SOCKET, LISTEN or CLOSE_SOCKET; each sends its own command (`AT+USOCR=6`, listen on the current socket and port, close the current socket), moves to its wait phase and returns 0 |
| `ServerProperties.ReadyWaitCreate` | src/GSMServer.cpp:56-66 | the create reply succeeds exactly when readiness is at most 1 and the text starts with `+USOCR: `; the socket id is then the last character minus '0' and the next phase is LISTEN; otherwise the server goes Idle with its socket id untouched and returns the readiness |
| `ServerProperties.ReadyWaitListen` | src/GSMServer.cpp:85-93 | a listen error or timeout moves to CLOSE_SOCKET and returns 0; otherwise Idle with the socket kept, returning the readiness |
| `ServerProperties.ReadyWaitClose` | src/GSMServer.cpp:109-113 | the close reply, whatever it is, leads to Idle with no listening socket |
| `ServerProperties.ReadyProgress` | src/GSMServer.cpp:41-117 | with the modem ready, each call either returns nonzero or strictly reduces the number of calls still possible before a nonzero return |
| `GsmServer.Drive` | src/GSMServer.cpp:123-125 | calling `ready()` until it returns nonzero: a nonzero stop leaves the server Idle and its code is the readiness of the last call; at most one command per call; table, port and synch flag untouched |
| `GsmServer.Begin` | src/GSMServer.cpp:119-126 | `begin()` only enters CREATE_SOCKET: an asynchronous server returns at once with no call made, no command sent and nothing else changed; a synchronous one keeps its table, port and synch flag and, when it stops with a nonzero code, is Idle |
| `ServerProperties.DriveWithinAnswers` | src/GSMServer.cpp:41-117 | by induction on `CallsLeft`: if the modem answers each of the next `CallsLeft` calls, `ready()` returns nonzero within that many calls |
| `ServerProperties.DriveIgnoresPolls` | src/GSMServer.cpp:37-45 | not-ready polls do not matter: a run ends in the same server, with the same commands and return code, as the run over the modem's answers alone, whose calls are the answers the first run consumed |
| `ServerProperties.DriveWithin` | src/GSMServer.cpp:41-117 | from any phase, once the modem has answered as many times as `CallsLeft` allows (six at most), not-ready polls included anywhere, `ready()` has returned nonzero, using at most that many answers |
| `ServerProperties.DriveSkipsNotReady` | src/GSMServer.cpp:37-45 | a not-ready poll in the middle of a run sends nothing and changes nothing; it only adds one call |
| `ServerProperties.BeginTerminates` | src/GSMServer.cpp:119-126 | a synchronous `begin()` returns, with the server Idle, once the modem has answered (nonzero readiness) six times, whatever number of not-ready polls come in between; the calls made consume at most six answers |
| `ServerProperties.DriveCreateAndListen` | src/GSMServer.cpp:47-83 | after `begin()`, with the create reply OK and starting with `+USOCR: `, the first three calls send the create command then the listen command for the named socket, and the run continues from WAIT_LISTEN with that socket |
| `ServerProperties.DriveListenFailed` | src/GSMServer.cpp:85-113 | a listen error or timeout is followed by exactly one close command for the listening socket, and two calls later the server is Idle with no listening socket, returning the last readiness |
| `ServerProperties.BeginSucceedsAfterPolls` | src/GSMServer.cpp:119-126 | a successful `begin()` with a not-ready poll after the create and another after the listen: six calls, the same two commands (create, then listen on the socket the reply names), Idle on that socket, return 1 |
| `ServerProperties.BeginSucceeds` | src/GSMServer.cpp:47-93 | create and listen both OK: four calls, commands create then listen on the socket named by the reply, Idle, listening socket set, return 1 |
| `ServerProperties.BeginCreateFails` | src/GSMServer.cpp:56-66 | a failed or malformed create reply: two calls, only the create command, Idle, listening socket id as before |
| `ServerProperties.BeginListenFails` | src/GSMServer.cpp:85-113 | a failed listen: six calls, commands create, listen and close in order, Idle with no listening socket; so six is the exact bound |
| `ServerProperties.BeginSucceedsAnyPolls` | src/GSMServer.cpp:47-93 | with not-ready polls anywhere: when the first four answers are OK and the second is a create reply, `begin()` ends Idle on the socket that reply names, having sent create then listen, returning 1 after consuming four answers |
| `ServerProperties.BeginCreateFailsAnyPolls` | src/GSMServer.cpp:56-66 | with not-ready polls anywhere: when the second answer is an error or lacks `+USOCR: `, `begin()` ends Idle with the socket id as before, having sent only create, returning that answer's code after two answers |
| `ServerProperties.BeginListenFailsAnyPolls` | src/GSMServer.cpp:85-113 | with not-ready polls anywhere: a good create answer and a failed listen answer end Idle with no listening socket after create, listen and close, returning the sixth answer's code after six answers |
| `ServerProperties.BeginPort80Scenario` | src/GSMServer.cpp:68-83 | on port 80 with the reply `+USOCR: 7`, the commands sent are the texts `AT+USOCR=6` and `AT+USOLI=7,80`, and the server settles with socket 7 |
| `GsmServer.Stop` | src/GSMServer.cpp:198-214 | a close command goes out exactly when the socket id is non-negative, for that socket, and the id becomes -1 with everything else unchanged; a negative id leaves the server unchanged and sends nothing |
| `ServerProperties.StopIdempotent` | src/GSMServer.cpp:198-214 | a second `stop()` sends nothing and changes nothing |
| `ServerProperties.StopDisablesQueries` | src/GSMServer.cpp:128-192 | after stopping an active server, `available()` yields no socket and `write()` reports 0, whatever the table holds |
| `ChildTable.Accept` | src/GSMServer.cpp:221-228 | the first free slot gets the id, marked accepted; a full table is unchanged |
| `ChildTable.Release` | src/GSMServer.cpp:232-239 | the first slot holding the id is reset to free and not accepted; an unknown id changes nothing |
| `GsmServer.HandleUrc` | src/GSMServer.cpp:216-241 | port, phase and listening socket are never touched; the table keeps its length; at most one slot changes; text with neither prefix changes nothing |
| `ServerProperties.UrcAccept` | src/GSMServer.cpp:218-228 | `+UUSOLI: ` fills the first free slot with (character 9 minus '0', accepted); a full table is unchanged; with room and an id other than -1, exactly one more slot is occupied |
| `ServerProperties.UrcClose` | src/GSMServer.cpp:229-239 | `+UUSOCL: ` frees the first slot whose id is the last character minus '0'; no match, no change; a present id other than -1 leaves exactly one fewer occupied slot |
| `ServerProperties.UrcKeepsPendingInvariant` | src/GSMServer.cpp:216-241 | notifications keep "accepted only while occupied", provided an accept does not name the id -1 |
| `ServerProperties.AcceptSlashMarksFreeSlot` | src/GSMServer.cpp:219-224 | `+UUSOLI: /` stores id -1 marked accepted in a free slot, breaking "accepted only while occupied" |
| `ServerProperties.AcceptDoesNotDeduplicate` | src/GSMServer.cpp:221-228 | two accepts for socket 3 occupy two slots with id 3 |
| `ChildTable.Select` | src/GSMServer.cpp:134-157 | the first pending slot wins, and only its accepted flag is cleared; with none pending, the first occupied slot with data wins and the table is unchanged; with neither, -1; a selected id is always one held by an occupied slot |
| `GsmServer.Available` | src/GSMServer.cpp:128-161 | with no listening socket the result is -1 and the table is unchanged; otherwise the result is -1 or an id an occupied slot holds |
| `ServerProperties.AvailableClearsOnePending` | src/GSMServer.cpp:136-143 | if any slot is pending, exactly one stops being pending (the selected one), occupancy is unchanged and no other slot changes; with none pending the table is unchanged |
| `ServerProperties.AvailableNoRepeatFresh` | src/GSMServer.cpp:136-143 | a connection handed out as freshly accepted is no longer pending afterwards |
| `ServerProperties.AvailablePrefersPending` | src/GSMServer.cpp:134-157 | a pending slot is selected even when another slot, earlier or later, has data |
| `ServerProperties.AvailableKeepsPendingInvariant` | src/GSMServer.cpp:128-161 | `available()` keeps "accepted only while occupied" |
| `ServerProperties.AcceptServeCloseScenario` | src/GSMServer.cpp:128-241 | on a listening server with an empty table: `+UUSOLI: 3` then `available()` gives 3 once; after `+UUSOCL: 3` the table is empty again and nothing is available |
| `GsmServer.Write` | src/GSMServer.cpp:177-192 | returns 0 with no listening socket; otherwise the `size_t` sum, in index order, of the counts the client reports for each occupied slot |
| `ServerProperties.WriteNothingToWrite` | src/GSMServer.cpp:177-192 | with no listening socket or no occupied slot, `write()` reports 0 |
| `GsmServer.WriteByte` | src/GSMServer.cpp:167-170 | the one-byte overload writes a one-byte buffer |
| `GsmServer.StrLen` | src/GSMServer.cpp:174 | the length is the index of the first NUL byte |
| `GsmServer.WriteString` | src/GSMServer.cpp:172-175 | the NUL-terminated overload writes the bytes before the first NUL |
| `GsmServer.CharAt` | src/GSMServer.cpp:219 | `charAt` gives the character at an index in range and NUL otherwise |
| `Commands.ParseRender` | src/GSMServer.cpp:73-76 | every command text the server builds reads back as the command it was built from, so no two commands share a text |
| `Commands.RenderInjective` | src/GSMServer.cpp:99-100 | distinct close (or listen) commands are sent as distinct text |
| `Commands.Render` | src/GSMServer.cpp:68-83 | the command texts: the create command is exactly `AT+USOCR=6`, a listen command is exactly a text starting `AT+USOLI=`, a close command is exactly a text starting `AT+USOCL=` (also built at lines 49, 99-100 and 207-208) |
| `Decimal.IntToString` | src/GSMServer.cpp:73-76 | appending an `int` to a `String` gives a non-empty text that starts with '-' exactly for negative values and is decimal digits otherwise (also at lines 100 and 208) |
| `Decimal.DigitValue` | src/GSMServer.cpp:60 | `ch - '0'` with no check: the result lies in 0..9 exactly when the character is a decimal digit (also at lines 219 and 230) |
| `Decimal.ParseIntToString` | src/GSMServer.cpp:74 | the decimal text of a socket id or port (sign and digits) reads back as that integer |

## Left out

- The modem transport (`MODEM.send`, `setResponseDataStorage`, `waitForResponse`,
  `ready`, `poll`). These are serial I/O. The readiness code and reply text are inputs to
  `Ready`, and a sent command is an output value.
- `MODEM.poll()` at the start of `available()`. Its effect is URCs delivered before the
  scan. Apply `HandleUrc` for each of them first; the model does not simulate the poll.
- `GSMClient`. Its `available()` and `write()` are the parameters `hasData` and
  `clientWrite`. A model value stands for the client handle `available()` returns: its
  socket id (`-1` for none). The `synch` argument passed to that handle is not modelled.
- URC handler registration in the constructor and destructor. This is plumbing.
- `beginWrite` and `endWrite`. They are empty.
- `String::reserve`. Only the text of a command matters.
- The 10-second timeout in `stop()`. `Stop` sends the close command and forgets the
  socket whatever the reply is, as `GSMServer.cpp` does.
- Begin: a synchronous `begin()` spins forever while the modem keeps answering "not
  ready". The model runs over a finite list of replies and returns code 0 if the list runs
  out first. Termination is stated by `ServerProperties.BeginTerminates`: once the modem
  has answered six times, with any number of not-ready polls in between, `begin()` has
  returned.
- Arduino `char` is a byte. The model accepts any `char`; a byte-valued character gives
  the same `ch - '0'` result.

## Where the code departs from the expected behaviour

The model follows the code in each of these:

- One might expect a socket id to appear in at most one slot. The code does not
  deduplicate accepts (`AcceptDoesNotDeduplicate`).
- One might expect `accepted` to be set only on occupied slots. An accept URC whose id
  character is `'/'` stores `(-1, accepted)` (`AcceptSlashMarksFreeSlot`). A close URC
  naming `'/'` then "matches" the first free slot.
- One might expect a failed `begin()` to leave the server with no listening socket. After
  a failed create, the code leaves `_socket` as it was (`BeginCreateFails`). It is -1
  only if it was -1 before `begin()`.
- `available()` returns no socket while `_socket` is -1, even when the table holds an
  accepted child. A freshly constructed server that receives `+UUSOLI: 3` therefore hands
  out nothing until it is listening. `AcceptServeCloseScenario` uses a listening server.
- `stop()` tests `_socket < 0`, while `available()` and `write()` test `_socket != -1`.
  The model keeps both tests.

=== FILE: child_table.dfy ===
/** The fixed-capacity table of child sockets the server keeps: one slot per
    connection accepted on the listening socket. A slot holds the modem's id
    for the child socket (-1 when the slot is free) and an `accepted` flag
    that is set by an accept notification and cleared when the connection is
    first handed to the application.
 */
module ChildTable {
  import opened Wrappers
  import opened Search

  const NoSocket: int := -1

  datatype Child = Child(socket: int, accepted: bool)

  const FreeSlot := Child(NoSocket, false)

  type Table = seq<Child>

  predicate IsFree(c: Child) {
    c.socket == NoSocket
  }

  predicate IsOccupied(c: Child) {
    c.socket != NoSocket
  }

  /** Accepted by the modem and not yet handed to the application. */
  predicate IsPending(c: Child) {
    c.socket != NoSocket && c.accepted
  }

  /** A slot is marked accepted only while it holds a socket. Accepts with
      a real id and every selection keep this; an accept whose id character
      is '/' does not. */
  ghost predicate PendingOnlyWhenOccupied(t: Table) {
    forall i :: 0 <= i < |t| ==> t[i].accepted ==> t[i].socket != NoSocket
  }

  function OccupiedCount(t: Table): nat {
    Count(t, IsOccupied)
  }

  function PendingCount(t: Table): nat {
    Count(t, IsPending)
  }

  /** Records an accepted child socket `id` in the first free slot; a full
      table is returned unchanged and the connection is dropped. */
  function Accept(t: Table, id: int): (t': Table)
    ensures |t'| == |t|
    ensures forall i :: IsFirst(t, IsFree, i) ==> t' == t[i := Child(id, true)]
    ensures (forall i :: 0 <= i < |t| ==> t[i].socket != NoSocket) ==> t' == t
  {
    match Find(t, IsFree)
    case Some(i) => t[i := Child(id, true)]
    case None => t
  }

  /** Frees the first slot holding `id`; an unknown id changes nothing.
      As in `GSMServer.cpp`, the comparison is plain equality, so `id == -1`
      "matches" the first free slot. */
  function Release(t: Table, id: int): (t': Table)
    ensures |t'| == |t|
    ensures forall i :: 0 <= i < |t| && t[i].socket == id
                        && (forall j :: 0 <= j < i ==> t[j].socket != id)
                        ==> t' == t[i := FreeSlot]
    ensures (forall i :: 0 <= i < |t| ==> t[i].socket != id) ==> t' == t
  {
    match Find(t, (c: Child) => c.socket == id)
    case Some(i) => t[i := FreeSlot]
    case None => t
  }

  /** The table after a selection, and the selected socket id (-1 if none). */
  datatype Selection = Selection(table: Table, socket: int)

  predicate HasData(hasData: int -> bool, c: Child) {
    c.socket != NoSocket && hasData(c.socket)
  }

  /** The two-pass selection of a connection for the application: the first
      pending accept wins, and its flag is cleared; failing that, the first
      occupied slot whose connection `hasData` reports readable wins, with
      the table unchanged; failing both, no socket. */
  function Select(t: Table, hasData: int -> bool): (r: Selection)
    ensures |r.table| == |t|
    ensures forall i :: IsFirst(t, IsPending, i) ==>
              r == Selection(t[i := Child(t[i].socket, false)], t[i].socket)
    ensures (forall i :: 0 <= i < |t| ==> !IsPending(t[i])) ==>
              && r.table == t
              && (forall i :: IsFirst(t, c => HasData(hasData, c), i) ==> r.socket == t[i].socket)
              && ((forall i :: 0 <= i < |t| ==> !HasData(hasData, t[i])) ==> r.socket == NoSocket)
    ensures r.socket == NoSocket || exists i :: 0 <= i < |t| && IsOccupied(t[i]) && t[i].socket == r.socket
  {
    match Find(t, IsPending)
    case Some(i) =>
      Selection(t[i := Child(t[i].socket, false)], t[i].socket)
    case None =>
      match Find(t, c => HasData(hasData, c))
      case Some(i) => Selection(t, t[i].socket)
      case None => Selection(t, NoSocket)
  }
}

=== FILE: commands.dfy ===
/** The three AT commands the server sends to the u-blox modem, their
    literal text, and a reader for that text that shows no information is
    lost when a command is rendered.
 */
module Commands {
  import opened Wrappers
  import opened Decimal
  import Search

  /** `Create` opens a TCP socket (protocol 6), `Listen` puts socket
      `socket` into listening mode on `port`, `Close` closes `socket`. */
  datatype Cmd = Create | Listen(socket: int, port: nat) | Close(socket: int)

  const CreateText := "AT+USOCR=6"
  const ListenPrefix := "AT+USOLI="
  const ClosePrefix := "AT+USOCL="

  /** The command line as sent: `AT+USOCR=6`, `AT+USOLI=<s>,<p>`,
      `AT+USOCL=<s>`, with the numbers in decimal. */
  function Render(c: Cmd): (t: string)
    ensures c.Create? <==> t == CreateText
    ensures c.Listen? <==> ListenPrefix <= t
    ensures c.Close? <==> ClosePrefix <= t
  {
    assert CreateText[6] != ListenPrefix[6] && CreateText[7] != ClosePrefix[7];
    assert ListenPrefix[6] != ClosePrefix[6];
    match c
    case Create => CreateText
    case Listen(s, p) =>
      var t := ListenPrefix + IntToString(s) + "," + IntToString(p);
      assert t[6] == ListenPrefix[6];
      t
    case Close(s) =>
      var t := ClosePrefix + IntToString(s);
      assert t[6] == ClosePrefix[6] && t[7] == ClosePrefix[7];
      t
  }

  predicate IsComma(c: char) {
    c == ','
  }

  /** Reads a command line back; anything that is not one of the three
      shapes `Render` produces is None. */
  function Parse(t: string): Option<Cmd> {
    if t == CreateText then Some(Create)
    else if ListenPrefix <= t then
      var args := t[|ListenPrefix|..];
      match Search.Find(args, IsComma)
      case None => None
      case Some(k) =>
        match (ParseInt(args[..k]), ParseInt(args[k + 1..]))
        case (Some(s), Some(p)) => if 0 <= p then Some(Listen(s, p)) else None
        case _ => None
    else if ClosePrefix <= t then
      match ParseInt(t[|ClosePrefix|..])
      case Some(s) => Some(Close(s))
      case None => None
    else None
  }

  /** In `a + "," + b` with no comma in `a`, the first comma is the one
      after `a`. */
  lemma FirstCommaAfter(a: string, b: string)
    requires forall i :: 0 <= i < |a| ==> !IsComma(a[i])
    ensures Search.Find(a + "," + b, IsComma) == Some(|a|)
  {
    var args := a + "," + b;
    assert forall j :: 0 <= j < |a| ==> args[j] == a[j];
    assert Search.IsFirst(args, IsComma, |a|);
  }

  lemma ParseRenderListen(s: int, p: nat)
    ensures Parse(Render(Listen(s, p))) == Some(Listen(s, p))
  {
    var t := Render(Listen(s, p));
    var a := IntToString(s);
    var args := a + "," + IntToString(p);
    assert t == ListenPrefix + args;
    assert t[|ListenPrefix|..] == args;
    FirstCommaAfter(a, IntToString(p));
    assert args[..|a|] == a;
    assert args[|a| + 1..] == IntToString(p);
    ParseIntToString(s);
    ParseIntToString(p);
  }

  lemma ParseRenderClose(s: int)
    ensures Parse(Render(Close(s))) == Some(Close(s))
  {
    var t := Render(Close(s));
    assert t[|ClosePrefix|..] == IntToString(s);
    ParseIntToString(s);
  }

  /** Every rendered command reads back as itself. */
  lemma ParseRender(c: Cmd)
    ensures Parse(Render(c)) == Some(c)
  {
    match c
    case Create =>
    case Listen(s, p) => ParseRenderListen(s, p);
    case Close(s) => ParseRenderClose(s);
  }

  /** Distinct commands are sent as distinct text. */
  lemma RenderInjective(a: Cmd, b: Cmd)
    requires Render(a) == Render(b)
    ensures a == b
  {
    ParseRender(a);
    ParseRender(b);
  }
}

=== FILE: decimal.dfy ===
/** Decimal text of integers, as produced when an `int` is appended to an
    Arduino `String`, and the character arithmetic the server uses to read
    socket ids out of modem replies.
 */
module Decimal {
  import opened Wrappers

  predicate IsDigit(c: char) {
    '0' <= c <= '9'
  }

  predicate AllDigits(s: string) {
    forall i :: 0 <= i < |s| ==> IsDigit(s[i])
  }

  /** `c - '0'` with no range check: a non-digit character yields a value
      outside 0..9 (for example `'/'` yields -1). */
  function DigitValue(c: char): (v: int)
    ensures IsDigit(c) <==> 0 <= v < 10
  {
    c as int - '0' as int
  }

  function DigitChar(d: nat): (c: char)
    requires d < 10
    ensures IsDigit(c) && DigitValue(c) == d
  {
    (d + '0' as int) as char
  }

  /** Shortest decimal text of a natural number. */
  function NatToString(n: nat): (s: string)
    ensures 1 <= |s| && AllDigits(s)
    decreases n
  {
    if n < 10 then [DigitChar(n)]
    else NatToString(n / 10) + [DigitChar(n % 10)]
  }

  /** Decimal text of an integer, with a leading '-' for negative values. */
  function IntToString(n: int): (s: string)
    ensures 1 <= |s|
    ensures s[0] == '-' <==> n < 0
    ensures forall i :: 0 < i < |s| ==> IsDigit(s[i])
  {
    if n < 0 then "-" + NatToString(-n) else NatToString(n)
  }

  /** Value of a string of decimal digits, most significant first. */
  function ValueOf(s: string): nat
    requires AllDigits(s)
    decreases |s|
  {
    if |s| == 0 then 0
    else ValueOf(s[..|s| - 1]) * 10 + DigitValue(s[|s| - 1])
  }

  /** Reads an optionally negative decimal integer; anything else is None. */
  function ParseInt(s: string): Option<int> {
    if 0 < |s| && AllDigits(s) then Some(ValueOf(s))
    else if 1 < |s| && s[0] == '-' && AllDigits(s[1..]) then
      Some(0 - ValueOf(s[1..]) as int)
    else None
  }

  lemma {:induction false} ValueOfNatToString(n: nat)
    ensures ValueOf(NatToString(n)) == n
    decreases n
  {
    if n >= 10 {
      var s := NatToString(n);
      assert s[..|s| - 1] == NatToString(n / 10);
      ValueOfNatToString(n / 10);
    }
  }

  /** Reading back the decimal text of any integer gives that integer. */
  lemma ParseIntToString(n: int)
    ensures ParseInt(IntToString(n)) == Some(n)
  {
    var s := IntToString(n);
    if n < 0 {
      assert !AllDigits(s) by { assert !IsDigit(s[0]); }
      assert s[1..] == NatToString(-n);
      ValueOfNatToString(-n);
    } else {
      ValueOfNatToString(n);
    }
  }

  /** Different integers have different decimal texts. */
  lemma IntToStringInjective(a: int, b: int)
    requires IntToString(a) == IntToString(b)
    ensures a == b
  {
    ParseIntToString(a);
    ParseIntToString(b);
  }
}

=== FILE: search.dfy ===
/** Linear search and counting over sequences.

    The server scans its fixed table of child sockets in index order four
    times (first free slot, first slot with a given id, first pending
    accept, first slot with data); every one of those scans is `Find`.
 */
module Search {
  import opened Wrappers

  /** `i` is the lowest index of `s` whose element satisfies `p`. */
  ghost predicate IsFirst<T>(s: seq<T>, p: T -> bool, i: int) {
    && 0 <= i < |s|
    && p(s[i])
    && forall j :: 0 <= j < i ==> !p(s[j])
  }

  /** Index of the first element satisfying `p`, scanning from index 0. */
  function Find<T>(s: seq<T>, p: T -> bool): (r: Option<nat>)
    ensures r.Some? ==> IsFirst(s, p, r.value)
    ensures r.None? <==> forall j :: 0 <= j < |s| ==> !p(s[j])
    decreases |s|
  {
    if |s| == 0 then None
    else if p(s[0]) then Some(0)
    else match Find(s[1..], p)
      case None => None
      case Some(k) => Some(k + 1)
  }

  /** Number of elements of `s` satisfying `p`. */
  function Count<T>(s: seq<T>, p: T -> bool): (n: nat)
    ensures n <= |s|
    decreases |s|
  {
    if |s| == 0 then 0
    else (if p(s[0]) then 1 else 0) + Count(s[1..], p)
  }

  /** Replacing one element changes the count by at most one, exactly as
      the old and new element's membership in `p` dictate. */
  lemma {:induction false} CountUpdate<T>(s: seq<T>, i: int, v: T, p: T -> bool)
    requires 0 <= i < |s|
    ensures Count(s[i := v], p)
            == Count(s, p) - (if p(s[i]) then 1 else 0) + (if p(v) then 1 else 0)
    decreases |s|
  {
    if i > 0 {
      assert s[i := v][1..] == s[1..][i - 1 := v];
      CountUpdate(s[1..], i - 1, v, p);
    } else {
      assert s[i := v][1..] == s[1..];
    }
  }

  /** The count is zero exactly when no element satisfies `p`. */
  lemma {:induction false} CountZero<T>(s: seq<T>, p: T -> bool)
    ensures Count(s, p) == 0 <==> forall j :: 0 <= j < |s| ==> !p(s[j])
    decreases |s|
  {
    if |s| > 0 {
      CountZero(s[1..], p);
      assert forall j :: 1 <= j < |s| ==> s[j] == s[1..][j - 1];
    }
  }
}

=== FILE: server.dfy ===
/** The listening-socket server of the MKR GSM library: its record, the
    non-blocking phase machine `Ready` with the `Begin` and `Stop` drivers,
    the handler for the modem's unsolicited accept/close notifications, and
    the two queries over the child table, `Available` and `Write`.

    Everything the modem does is an input: the readiness code and captured
    reply text for `Ready`, the notification text for `HandleUrc`, and the
    per-socket answers of the client object for `Available` and `Write`.
    A command the server sends is returned as a value instead.
 */
module GsmServer {
  import opened Wrappers
  import opened ChildTable
  import opened Decimal
  import Commands

  /** Capacity of the child table (`MAX_CHILD_SOCKETS`). */
  const MaxChildSockets: nat := 6

  type Port = p: int | 0 <= p < 0x1_0000
  type Byte = b: int | 0 <= b < 0x100

  /** `size_t` on the 32-bit target. */
  const SizeModulus: int := 0x1_0000_0000
  type Size = n: int | 0 <= n < SizeModulus

  /** The lifecycle phases, in the order of the enum in `GSMServer.cpp`. */
  datatype Phase =
    | Idle
    | CreateSocket
    | WaitCreateSocket
    | ListenSocket
    | WaitListen
    | CloseSocket
    | WaitCloseSocket

  datatype Server = Server(
    port: Port,
    synch: bool,
    socket: int,     // the listening socket's id on the modem, -1 when none
    phase: Phase,
    children: Table)

  /** The outcome of one call of `Ready`: the new server, the command sent
      during the call (at most one), and the returned code. */
  datatype Step = Step(server: Server, cmd: Option<Commands.Cmd>, ret: int)

  /** A state change with no return code: the new server and the command
      sent, if any. */
  datatype Effect = Effect(server: Server, cmd: Option<Commands.Cmd>)

  /** The modem's answer seen by one call of `Ready`: its readiness code
      (0 not ready, 1 OK, above 1 error or timeout) and the text captured
      in the server's response buffer. */
  datatype Reply = Reply(readiness: int, response: string)

  const CreatedPrefix := "+USOCR: "
  const AcceptPrefix := "+UUSOLI: "
  const ClosedPrefix := "+UUSOCL: "

  /** Arduino `String::charAt`: the character at `i`, or NUL past the end. */
  function CharAt(s: string, i: int): (c: char)
    ensures 0 <= i < |s| ==> c == s[i]
    ensures !(0 <= i < |s|) ==> c == '\0'
  {
    if 0 <= i < |s| then s[i] else '\0'
  }

  /** The socket id named by the last character of a create reply or a
      close notification: `ch - '0'`, with no digit check. */
  function TrailingId(text: string): int {
    DigitValue(CharAt(text, |text| - 1))
  }

  /** The socket id named by an accept notification: the character at
      index 9, just after the prefix, minus '0'. */
  function AcceptedId(urc: string): int {
    DigitValue(CharAt(urc, 9))
  }

  /** A freshly constructed server: no listening socket, idle, every child
      slot free. */
  function New(port: Port, synch: bool): (s: Server)
    ensures s.port == port && s.synch == synch
    ensures s.socket == NoSocket && s.phase == Idle
    ensures |s.children| == MaxChildSockets
    ensures OccupiedCount(s.children) == 0 && PendingOnlyWhenOccupied(s.children)
  {
    var t := seq(MaxChildSockets, _ => FreeSlot);
    Search.CountZero(t, IsOccupied);
    Server(port, synch, NoSocket, Idle, t)
  }

  /** Phases whose call issues a command. */
  predicate IsCommandPhase(p: Phase) {
    p == CreateSocket || p == ListenSocket || p == CloseSocket
  }

  /** The transition table of the phase machine: the phases a call of
      `Ready` may move to from `p`. Idle only ever stays Idle; each command
      phase moves to its waiting phase; each waiting phase either advances
      or falls back. */
  predicate MayFollow(p: Phase, q: Phase) {
    match p
    case Idle => q == Idle
    case CreateSocket => q == WaitCreateSocket
    case WaitCreateSocket => q == ListenSocket || q == Idle
    case ListenSocket => q == WaitListen
    case WaitListen => q == CloseSocket || q == Idle
    case CloseSocket => q == WaitCloseSocket
    case WaitCloseSocket => q == Idle
  }

  /** One non-blocking call of `GSMServer::ready()` given the modem's
      readiness code and the captured reply text. */
  function Ready(s: Server, readiness: int, response: string): (r: Step)
    ensures readiness == 0 ==> r == Step(s, None, 0)
    ensures r.ret == 0 || r.ret == readiness
    ensures r.ret != 0 ==> r.server.phase == Idle
    ensures r.cmd.Some? ==> r.ret == 0
    ensures r.server.phase == s.phase || MayFollow(s.phase, r.server.phase)
    ensures r.server.port == s.port && r.server.synch == s.synch
    ensures r.server.children == s.children
    ensures r.server.socket != s.socket ==> s.phase == WaitCreateSocket || s.phase == WaitCloseSocket
  {
    if readiness == 0 then Step(s, None, 0)
    else
      match s.phase
      case Idle => Step(s, None, readiness)
      case CreateSocket =>
        Step(s.(phase := WaitCreateSocket), Some(Commands.Create), 0)
      case WaitCreateSocket =>
        if readiness > 1 || !(CreatedPrefix <= response) then
          Step(s.(phase := Idle), None, readiness)
        else
          Step(s.(socket := TrailingId(response), phase := ListenSocket), None, 0)
      case ListenSocket =>
        Step(s.(phase := WaitListen), Some(Commands.Listen(s.socket, s.port)), 0)
      case WaitListen =>
        if readiness > 1 then Step(s.(phase := CloseSocket), None, 0)
        else Step(s.(phase := Idle), None, readiness)
      case CloseSocket =>
        Step(s.(phase := WaitCloseSocket), Some(Commands.Close(s.socket)), 0)
      case WaitCloseSocket =>
        Step(s.(phase := Idle, socket := NoSocket), None, readiness)
  }

  /** The result of calling `Ready` until it returns nonzero: the final
      server, the commands sent in order, the number of calls and the last
      return code (0 if the replies ran out first). */
  datatype Run = Run(server: Server, cmds: seq<Commands.Cmd>, calls: nat, ret: int)

  /** Calls `Ready` once per reply, stopping after the first nonzero return. */
  function Drive(s: Server, replies: seq<Reply>): (r: Run)
    ensures r.calls <= |replies|
    ensures r.ret != 0 ==> 1 <= r.calls && r.server.phase == Idle
    ensures r.ret != 0 ==> r.ret == replies[r.calls - 1].readiness
    ensures r.ret == 0 ==> r.calls == |replies|
    ensures |r.cmds| <= r.calls
    ensures r.server.port == s.port && r.server.children == s.children
    ensures r.server.synch == s.synch
    decreases |replies|
  {
    if |replies| == 0 then Run(s, [], 0, 0)
    else
      var st := Ready(s, replies[0].readiness, replies[0].response);
      var sent := if st.cmd.Some? then [st.cmd.value] else [];
      if st.ret != 0 then Run(st.server, sent, 1, st.ret)
      else
        var rest := Drive(st.server, replies[1..]);
        Run(rest.server, sent + rest.cmds, rest.calls + 1, rest.ret)
  }

  /** `GSMServer::begin()`: enter `CreateSocket`; a synchronous server then
      keeps calling `Ready` until it returns nonzero. */
  function Begin(s: Server, replies: seq<Reply>): (r: Run)
    ensures !s.synch ==> r == Run(s.(phase := CreateSocket), [], 0, 0)
    ensures s.synch && r.ret != 0 ==> r.server.phase == Idle
    ensures r.server.children == s.children && r.server.port == s.port
    ensures r.server.synch == s.synch
  {
    var started := s.(phase := CreateSocket);
    if s.synch then Drive(started, replies) else Run(started, [], 0, 0)
  }

  /** `GSMServer::stop()`: with a listening socket, close it at once and
      forget it; the phase and the child table are left alone. */
  function Stop(s: Server): (r: Effect)
    ensures r.cmd.Some? <==> s.socket >= 0
    ensures r.cmd.Some? ==> r.cmd.value == Commands.Close(s.socket)
    ensures s.socket < 0 ==> r == Effect(s, None)
    ensures s.socket >= 0 ==> r.server == s.(socket := NoSocket)
  {
    if s.socket < 0 then Effect(s, None)
    else Effect(s.(socket := NoSocket), Some(Commands.Close(s.socket)))
  }

  /** `GSMServer::handleUrc`: an accept notification records the child
      socket named by the character after the prefix; a close notification
      frees the slot of the socket named by the last character; any other
      text is ignored. */
  function HandleUrc(s: Server, urc: string): (s': Server)
    ensures s'.port == s.port && s'.synch == s.synch
    ensures s'.socket == s.socket && s'.phase == s.phase
    ensures |s'.children| == |s.children|
    ensures forall i, j :: 0 <= i < j < |s.children| && s'.children[i] != s.children[i]
              ==> s'.children[j] == s.children[j]
    ensures forall i, j :: 0 <= j < i < |s.children| && s'.children[i] != s.children[i]
              ==> s'.children[j] == s.children[j]
    ensures !(AcceptPrefix <= urc) && !(ClosedPrefix <= urc) ==> s' == s
  {
    if AcceptPrefix <= urc then
      s.(children := Accept(s.children, AcceptedId(urc)))
    else if ClosedPrefix <= urc then
      s.(children := Release(s.children, TrailingId(urc)))
    else s
  }

  /** `GSMServer::available`: with no listening socket, no connection;
      otherwise the table's two-pass selection. */
  function Available(s: Server, hasData: int -> bool): (r: Selection)
    ensures s.socket == NoSocket ==> r == Selection(s.children, NoSocket)
    ensures |r.table| == |s.children|
    ensures r.socket == NoSocket
            || exists i :: 0 <= i < |s.children| && IsOccupied(s.children[i])
                           && s.children[i].socket == r.socket
  {
    if s.socket == NoSocket then Selection(s.children, NoSocket)
    else Select(s.children, hasData)
  }

  /** Sum of the byte counts `clientWrite` reports for `buf` over the
      occupied slots of `t`, in index order. */
  function Written(t: Table, buf: seq<Byte>, clientWrite: (int, seq<Byte>) -> Size): nat
    decreases |t|
  {
    if |t| == 0 then 0
    else
      var last := t[|t| - 1];
      Written(t[..|t| - 1], buf, clientWrite)
        + (if IsOccupied(last) then clientWrite(last.socket, buf) else 0)
  }

  /** What `write(buf, sz)` returns: zero without a listening socket, else
      the wrapped `size_t` sum over the occupied children. */
  function WriteTotal(s: Server, buf: seq<Byte>, clientWrite: (int, seq<Byte>) -> Size): Size {
    if s.socket == NoSocket then 0 else Written(s.children, buf, clientWrite) % SizeModulus
  }

  /** Adding to a wrapped running sum wraps the true sum. Kept as a lemma so
      the loop in `Write` sees this one fact and not the arithmetic behind it. */
  lemma AddMod(a: nat, b: nat)
    ensures (a % SizeModulus + b) % SizeModulus == (a + b) % SizeModulus
  {
  }

  /** `GSMServer::write(buf, sz)`: writes `buf` to every occupied child and
      adds up, in `size_t`, the counts the client object reports. */
  method Write(s: Server, buf: seq<Byte>, clientWrite: (int, seq<Byte>) -> Size)
    returns (written: Size)
    ensures written == WriteTotal(s, buf, clientWrite)
  {
    written := 0;
    if s.socket != NoSocket {
      var t := s.children;
      var i := 0;
      while i < |t|
        invariant 0 <= i <= |t|
        invariant written == Written(t[..i], buf, clientWrite) % SizeModulus
      {
        assert t[..i + 1][..i] == t[..i];
        if t[i].socket != NoSocket {
          var n := clientWrite(t[i].socket, buf);
          AddMod(Written(t[..i], buf, clientWrite), n);
          written := (written + n) % SizeModulus;
        }
        i := i + 1;
      }
      assert t[..|t|] == t;
    }
  }

  /** `GSMServer::write(uint8_t)`: a one-byte buffer. */
  method WriteByte(s: Server, b: Byte, clientWrite: (int, seq<Byte>) -> Size)
    returns (written: Size)
    ensures written == WriteTotal(s, [b], clientWrite)
  {
    written := Write(s, [b], clientWrite);
  }

  /** `strlen`: the index of the first NUL byte. */
  function StrLen(buf: seq<Byte>): (n: nat)
    requires 0 in buf
    ensures n < |buf| && buf[n] == 0
    ensures forall j :: 0 <= j < n ==> buf[j] != 0
  {
    var k := Search.Find(buf, (b: Byte) => b == 0);
    k.value
  }

  /** `GSMServer::write(const uint8_t*)`: the bytes before the terminating
      NUL. */
  method WriteString(s: Server, buf: seq<Byte>, clientWrite: (int, seq<Byte>) -> Size)
    returns (written: Size)
    requires 0 in buf
    ensures written == WriteTotal(s, buf[..StrLen(buf)], clientWrite)
  {
    written := Write(s, buf[..StrLen(buf)], clientWrite);
  }
}

=== FILE: server_properties.dfy ===
/** Properties of the server model that relate several calls or pin down
    the phase machine's behaviour in each phase. */
module ServerProperties {
  import opened Wrappers
  import opened Search
  import opened Decimal
  import opened ChildTable
  import opened GsmServer
  import Commands

  // ---------------------------------------------------------------------
  // The phase machine, phase by phase

  /** Idle, or a modem that is not ready: nothing is sent, nothing changes,
      and the readiness code is handed back. */
  lemma ReadyIdleOrNotReady(s: Server, readiness: int, response: string)
    requires s.phase == Idle || readiness == 0
    ensures Ready(s, readiness, response) == Step(s, None, readiness)
  {
  }

  /** A command goes out exactly when the modem is ready and the phase is
      one of the three command phases; each sends its own command, moves to
      its waiting phase and returns 0. */
  lemma ReadyCommandPhases(s: Server, readiness: int, response: string)
    ensures Ready(s, readiness, response).cmd.Some? <==> readiness != 0 && IsCommandPhase(s.phase)
    ensures readiness != 0 && s.phase == CreateSocket ==>
              Ready(s, readiness, response)
              == Step(s.(phase := WaitCreateSocket), Some(Commands.Create), 0)
    ensures readiness != 0 && s.phase == ListenSocket ==>
              Ready(s, readiness, response)
              == Step(s.(phase := WaitListen), Some(Commands.Listen(s.socket, s.port)), 0)
    ensures readiness != 0 && s.phase == CloseSocket ==>
              Ready(s, readiness, response)
              == Step(s.(phase := WaitCloseSocket), Some(Commands.Close(s.socket)), 0)
  {
  }

  /** Waiting for the create reply: it succeeds exactly when the outcome is
      not an error and the reply starts with "+USOCR: "; the listening
      socket id is then read from the last character. Otherwise the attempt
      is abandoned with the listening socket id untouched. */
  lemma ReadyWaitCreate(s: Server, readiness: int, response: string)
    requires s.phase == WaitCreateSocket && readiness != 0
    ensures var r := Ready(s, readiness, response);
      && (r.server.phase == ListenSocket <==> readiness <= 1 && CreatedPrefix <= response)
      && (r.server.phase == ListenSocket ==>
            r.ret == 0 && r.server.socket == DigitValue(response[|response| - 1]))
      && (r.server.phase != ListenSocket ==>
            r == Step(s.(phase := Idle), None, readiness))
  {
  }

  /** Waiting for the listen reply: an error or timeout goes on to close the
      half-made socket; success settles in Idle with the socket kept. */
  lemma ReadyWaitListen(s: Server, readiness: int, response: string)
    requires s.phase == WaitListen && readiness != 0
    ensures readiness > 1 ==> Ready(s, readiness, response) == Step(s.(phase := CloseSocket), None, 0)
    ensures readiness <= 1 ==> Ready(s, readiness, response) == Step(s.(phase := Idle), None, readiness)
  {
  }

  /** Waiting for the close reply: whatever the outcome, back to Idle with
      no listening socket. */
  lemma ReadyWaitClose(s: Server, readiness: int, response: string)
    requires s.phase == WaitCloseSocket && readiness != 0
    ensures Ready(s, readiness, response)
            == Step(s.(phase := Idle, socket := NoSocket), None, readiness)
  {
  }

  // ---------------------------------------------------------------------
  // Termination of the synchronous begin loop

  /** The most calls with a nonzero readiness that can still pass, from
      phase `p`, before `Ready` returns nonzero. */
  function CallsLeft(p: Phase): nat {
    match p
    case Idle => 1
    case CreateSocket => 6
    case WaitCreateSocket => 5
    case ListenSocket => 4
    case WaitListen => 3
    case CloseSocket => 2
    case WaitCloseSocket => 1
  }

  /** With the modem ready, every call either returns nonzero or gets
      strictly closer to doing so. */
  lemma ReadyProgress(s: Server, readiness: int, response: string)
    requires readiness != 0
    ensures var r := Ready(s, readiness, response);
      r.ret != 0 || CallsLeft(r.server.phase) < CallsLeft(s.phase)
  {
  }

  /** How many of `replies` report a ready modem (nonzero readiness); the
      rest are the polls that `begin()` spins through while waiting. */
  function Answered(replies: seq<Reply>): nat
    decreases |replies|
  {
    if |replies| == 0 then 0
    else (if replies[0].readiness != 0 then 1 else 0) + Answered(replies[1..])
  }

  /** The replies that report a ready modem, in order: what a run sees
      once the not-ready polls are taken out. */
  function Answers(replies: seq<Reply>): (a: seq<Reply>)
    ensures |a| == Answered(replies)
    ensures forall i :: 0 <= i < |a| ==> a[i].readiness != 0 && a[i] in replies
    decreases |replies|
  {
    if |replies| == 0 then []
    else if replies[0].readiness != 0 then [replies[0]] + Answers(replies[1..])
    else Answers(replies[1..])
  }

  /** From any phase, if the modem is ready on each of the next
      `CallsLeft` calls, `Ready` returns nonzero within that many calls. */
  lemma {:induction false} DriveWithinAnswers(s: Server, replies: seq<Reply>)
    requires CallsLeft(s.phase) <= |replies|
    requires forall i :: 0 <= i < CallsLeft(s.phase) ==> replies[i].readiness != 0
    ensures Drive(s, replies).ret != 0
    ensures Drive(s, replies).calls <= CallsLeft(s.phase)
    decreases |replies|
  {
    var st := Ready(s, replies[0].readiness, replies[0].response);
    ReadyProgress(s, replies[0].readiness, replies[0].response);
    if st.ret == 0 {
      var rest := replies[1..];
      assert forall i :: 0 <= i < CallsLeft(st.server.phase) ==> rest[i] == replies[i + 1];
      DriveWithinAnswers(st.server, rest);
    }
  }

  /** From any phase, once the modem has answered `CallsLeft` times,
      however many not-ready polls come in between, `Ready` has returned
      nonzero; the calls made use at most `CallsLeft` answers. */
  lemma DriveWithin(s: Server, replies: seq<Reply>)
    requires CallsLeft(s.phase) <= Answered(replies)
    ensures Drive(s, replies).ret != 0
    ensures Answered(replies[..Drive(s, replies).calls]) <= CallsLeft(s.phase)
  {
    DriveWithinAnswers(s, Answers(replies));
    DriveIgnoresPolls(s, replies);
  }

  /** A synchronous `begin()` returns once the modem has answered six
      times, whatever not-ready polls come in between, and leaves the
      server Idle. */
  lemma BeginTerminates(s: Server, replies: seq<Reply>)
    requires s.synch
    requires 6 <= Answered(replies)
    ensures Begin(s, replies).ret != 0
    ensures Answered(replies[..Begin(s, replies).calls]) <= 6
    ensures Begin(s, replies).server.phase == Idle
  {
    DriveWithin(s.(phase := CreateSocket), replies);
  }

  /** Counting the answers in a prefix of length `n`: the first reply, then
      the rest. */
  lemma AnsweredPrefix(replies: seq<Reply>, n: nat)
    requires 1 <= n <= |replies|
    ensures Answered(replies[..n])
            == (if replies[0].readiness != 0 then 1 else 0) + Answered(replies[1..][..n - 1])
  {
    assert replies[..n][0] == replies[0];
    assert replies[..n][1..] == replies[1..][..n - 1];
  }

  /** Run `d` over `replies` and run `e` over their answers end in the same
      server, with the same commands and return code, and `e`'s calls are
      the answers `d` consumed. */
  ghost predicate Agree(replies: seq<Reply>, d: Run, e: Run) {
    && d.server == e.server && d.cmds == e.cmds && d.ret == e.ret
    && d.calls <= |replies| && e.calls == Answered(replies[..d.calls])
  }

  /** `Agree` survives prepending the same call to both runs, when the
      call consumed an answer. */
  lemma AgreeAfter(replies: seq<Reply>, sent: seq<Commands.Cmd>, d: Run, e: Run)
    requires |replies| > 0 && replies[0].readiness != 0
    requires Agree(replies[1..], d, e)
    ensures Agree(replies, After(sent, d), After(sent, e))
  {
    AnsweredPrefix(replies, d.calls + 1);
  }

  /** `Agree` survives a not-ready poll that only the run over `replies`
      makes. */
  lemma AgreeSkip(replies: seq<Reply>, d: Run, e: Run)
    requires |replies| > 0 && replies[0].readiness == 0
    requires Agree(replies[1..], d, e)
    ensures Agree(replies, After([], d), e)
  {
    AnsweredPrefix(replies, d.calls + 1);
  }

  /** The run over `replies` agrees with the run over their answers. */
  ghost predicate PollsIgnored(s: Server, replies: seq<Reply>) {
    Agree(replies, Drive(s, replies), Drive(s, Answers(replies)))
  }

  /** A leading not-ready poll keeps `PollsIgnored`. */
  lemma PollsIgnoredPoll(s: Server, replies: seq<Reply>)
    requires |replies| > 0 && replies[0].readiness == 0
    requires PollsIgnored(s, replies[1..])
    ensures PollsIgnored(s, replies)
  {
    var d' := Drive(s, replies[1..]);
    assert Drive(s, replies) == After([], d') by {
      DriveSkipsNotReady(s, replies, 0);
      assert replies[0..] == replies;
    }
    assert Answers(replies) == Answers(replies[1..]);
    AgreeSkip(replies, d', Drive(s, Answers(replies)));
  }

  /** The answers of a list that starts with an answer: that answer, then
      the answers of the rest. */
  lemma AnswersOfAnswer(replies: seq<Reply>)
    requires |replies| > 0 && replies[0].readiness != 0
    ensures var a := Answers(replies);
      |a| > 0 && a[0] == replies[0] && a[1..] == Answers(replies[1..])
  {
  }

  /** A leading answer on which `Ready` returns zero, moving to `next` and
      sending `sent`, keeps `PollsIgnored`: both runs make that call and go
      on from `next`. */
  lemma PollsIgnoredContinue(s: Server, replies: seq<Reply>, next: Server, sent: seq<Commands.Cmd>)
    requires |replies| > 0 && replies[0].readiness != 0
    requires var st := Ready(s, replies[0].readiness, replies[0].response);
      && st.ret == 0 && st.server == next
      && sent == (if st.cmd.Some? then [st.cmd.value] else [])
    requires PollsIgnored(next, replies[1..])
    ensures PollsIgnored(s, replies)
  {
    var a := Answers(replies);
    AnswersOfAnswer(replies);
    var d', e' := Drive(next, replies[1..]), Drive(next, a[1..]);
    assert Drive(s, replies) == After(sent, d') by {
      DriveOn(s, replies, 0, next, sent);
      assert replies[0..] == replies;
    }
    assert Drive(s, a) == After(sent, e') by {
      DriveOn(s, a, 0, next, sent);
      assert a[0..] == a;
    }
    AgreeAfter(replies, sent, d', e');
  }

  /** A leading answer on which `Ready` returns nonzero: both runs stop
      after that one call. */
  lemma PollsIgnoredStop(s: Server, replies: seq<Reply>)
    requires |replies| > 0 && replies[0].readiness != 0
    requires Ready(s, replies[0].readiness, replies[0].response).ret != 0
    ensures PollsIgnored(s, replies)
  {
    var st := Ready(s, replies[0].readiness, replies[0].response);
    var a := Answers(replies);
    AnswersOfAnswer(replies);
    assert Drive(s, replies) == Run(st.server, [], 1, st.ret);
    assert Drive(s, a) == Run(st.server, [], 1, st.ret);
    AnsweredPrefix(replies, 1);
  }

  /** Not-ready polls do not matter: a run ends in the same server, with
      the same commands and the same return code, as the run over the
      answers alone, and the calls of the latter are the answers the former
      consumed. */
  lemma {:induction false} DriveIgnoresPolls(s: Server, replies: seq<Reply>)
    ensures var d, e := Drive(s, replies), Drive(s, Answers(replies));
      && d.server == e.server && d.cmds == e.cmds && d.ret == e.ret
      && e.calls == Answered(replies[..d.calls])
    decreases |replies|
  {
    if |replies| == 0 {
      assert PollsIgnored(s, replies);
    } else if replies[0].readiness == 0 {
      DriveIgnoresPolls(s, replies[1..]);
      PollsIgnoredPoll(s, replies);
    } else {
      var st := Ready(s, replies[0].readiness, replies[0].response);
      if st.ret == 0 {
        DriveIgnoresPolls(st.server, replies[1..]);
        PollsIgnoredContinue(s, replies, st.server, if st.cmd.Some? then [st.cmd.value] else []);
      } else {
        PollsIgnoredStop(s, replies);
      }
    }
  }

  /** Prepends one call's command and count to a run. */
  function After(sent: seq<Commands.Cmd>, d: Run): Run {
    Run(d.server, sent + d.cmds, d.calls + 1, d.ret)
  }

  /** A call on reply `k` that returns zero: the run from reply `k` is that
      call followed by the run from the new server on reply `k + 1`. */
  lemma DriveOn(s: Server, replies: seq<Reply>, k: nat, next: Server, sent: seq<Commands.Cmd>)
    requires k < |replies|
    requires var st := Ready(s, replies[k].readiness, replies[k].response);
      && st.ret == 0 && st.server == next
      && sent == (if st.cmd.Some? then [st.cmd.value] else [])
    ensures Drive(s, replies[k..]) == After(sent, Drive(next, replies[k + 1..]))
  {
  }

  lemma DriveCreateStep(s: Server, replies: seq<Reply>, k: nat)
    requires s.phase == CreateSocket && k < |replies| && replies[k].readiness != 0
    ensures Drive(s, replies[k..])
            == After([Commands.Create], Drive(s.(phase := WaitCreateSocket), replies[k + 1..]))
  {
  }

  lemma DriveWaitCreateStep(s: Server, replies: seq<Reply>, k: nat)
    requires s.phase == WaitCreateSocket && k < |replies|
    requires replies[k].readiness == 1 && CreatedPrefix <= replies[k].response
    ensures var id := TrailingId(replies[k].response);
      Drive(s, replies[k..])
      == After([], Drive(s.(phase := ListenSocket, socket := id), replies[k + 1..]))
  {
  }

  lemma DriveListenStep(s: Server, replies: seq<Reply>, k: nat)
    requires s.phase == ListenSocket && k < |replies| && replies[k].readiness != 0
    ensures Drive(s, replies[k..])
            == After([Commands.Listen(s.socket, s.port)], Drive(s.(phase := WaitListen), replies[k + 1..]))
  {
  }

  /** A not-ready poll sends nothing and changes nothing: the run just
      counts one more call. */
  lemma DriveSkipsNotReady(s: Server, replies: seq<Reply>, k: nat)
    requires k < |replies| && replies[k].readiness == 0
    ensures Drive(s, replies[k..]) == After([], Drive(s, replies[k + 1..]))
  {
  }

  /** The first three calls after `begin()` when the create succeeds: the
      create and listen commands go out and the server waits for the listen
      reply on the socket the modem named. */
  lemma DriveCreateAndListen(s: Server, replies: seq<Reply>)
    requires s.phase == CreateSocket && 3 <= |replies|
    requires replies[0].readiness != 0 && replies[2].readiness != 0
    requires replies[1].readiness == 1 && CreatedPrefix <= replies[1].response
    ensures var id := TrailingId(replies[1].response);
      var d := Drive(s.(phase := WaitListen, socket := id), replies[3..]);
      Drive(s, replies) == After([Commands.Create], After([], After([Commands.Listen(id, s.port)], d)))
  {
    var id := TrailingId(replies[1].response);
    var s1 := s.(phase := WaitCreateSocket);
    var s2 := s.(phase := ListenSocket, socket := id);
    var d := Drive(s.(phase := WaitListen, socket := id), replies[3..]);
    assert Drive(s2, replies[2..]) == After([Commands.Listen(id, s.port)], d) by {
      DriveListenStep(s2, replies, 2);
    }
    assert Drive(s1, replies[1..]) == After([], Drive(s2, replies[2..])) by {
      DriveWaitCreateStep(s1, replies, 1);
    }
    assert Drive(s, replies[0..]) == After([Commands.Create], Drive(s1, replies[1..])) by {
      DriveCreateStep(s, replies, 0);
    }
    assert replies[0..] == replies;
  }

  /** Create and listen both succeed: four calls, two commands, and an Idle
      server listening on the socket the modem named. */
  lemma BeginSucceeds(s: Server, replies: seq<Reply>)
    requires s.synch && |replies| >= 4
    requires forall i :: 0 <= i < 4 ==> replies[i].readiness == 1
    requires CreatedPrefix <= replies[1].response
    ensures var id := TrailingId(replies[1].response);
      Begin(s, replies) == Run(
        s.(phase := Idle, socket := id),
        [Commands.Create, Commands.Listen(id, s.port)], 4, 1)
  {
    var id := TrailingId(replies[1].response);
    DriveCreateAndListen(s.(phase := CreateSocket), replies);
    var s3 := s.(phase := WaitListen, socket := id);
    assert replies[3..][0] == replies[3];
    assert Drive(s3, replies[3..]) == Run(s3.(phase := Idle), [], 1, 1);
  }

  /** The create command fails (error, timeout or unexpected reply): two
      calls, one command, Idle, and the listening socket id as before. */
  lemma BeginCreateFails(s: Server, replies: seq<Reply>)
    requires s.synch && |replies| >= 2
    requires replies[0].readiness != 0 && replies[1].readiness != 0
    requires replies[1].readiness > 1 || !(CreatedPrefix <= replies[1].response)
    ensures Begin(s, replies)
            == Run(s.(phase := Idle), [Commands.Create], 2, replies[1].readiness)
  {
    var s1 := s.(phase := WaitCreateSocket);
    assert replies[1..][0] == replies[1];
    assert Drive(s1, replies[1..]) == Run(s.(phase := Idle), [], 1, replies[1].readiness);
  }

  /** After a failed listen reply at index `k`, two more calls close the
      socket and leave the server Idle with no listening socket. */
  lemma DriveListenFailed(s: Server, replies: seq<Reply>, k: nat)
    requires s.phase == WaitListen && k + 3 <= |replies|
    requires replies[k].readiness > 1
    requires replies[k + 1].readiness != 0 && replies[k + 2].readiness != 0
    ensures Drive(s, replies[k..])
            == Run(s.(phase := Idle, socket := NoSocket), [Commands.Close(s.socket)], 3, replies[k + 2].readiness)
  {
    var s4 := s.(phase := CloseSocket);
    var s5 := s.(phase := WaitCloseSocket);
    assert replies[k + 2..][0] == replies[k + 2];
    assert Drive(s5, replies[k + 2..]) == Run(s.(phase := Idle, socket := NoSocket), [], 1, replies[k + 2].readiness);
    ReadyCommandPhases(s4, replies[k + 1].readiness, replies[k + 1].response);
    DriveOn(s4, replies, k + 1, s5, [Commands.Close(s.socket)]);
    ReadyWaitListen(s, replies[k].readiness, replies[k].response);
    DriveOn(s, replies, k, s4, []);
  }

  /** The listen command fails: six calls, the create, listen and close
      commands in that order, and an Idle server with no listening socket.
      Six is therefore the exact bound of `BeginTerminates`. */
  lemma BeginListenFails(s: Server, replies: seq<Reply>)
    requires s.synch && |replies| >= 6
    requires forall i :: 0 <= i < 6 ==> replies[i].readiness != 0
    requires replies[1].readiness == 1 && CreatedPrefix <= replies[1].response
    requires replies[3].readiness > 1
    ensures var id := TrailingId(replies[1].response);
      Begin(s, replies) == Run(
        s.(phase := Idle, socket := NoSocket),
        [Commands.Create, Commands.Listen(id, s.port), Commands.Close(id)],
        6, replies[5].readiness)
  {
    var id := TrailingId(replies[1].response);
    DriveCreateAndListen(s.(phase := CreateSocket), replies);
    DriveListenFailed(s.(phase := WaitListen, socket := id), replies, 3);
  }

  /** `BeginSucceeds` with not-ready polls anywhere: the outcome is decided
      by the modem's answers alone. */
  lemma BeginSucceedsAnyPolls(s: Server, replies: seq<Reply>)
    requires s.synch
    requires var a := Answers(replies);
      && |a| >= 4 && (forall i :: 0 <= i < 4 ==> a[i].readiness == 1)
      && CreatedPrefix <= a[1].response
    ensures var r, id := Begin(s, replies), TrailingId(Answers(replies)[1].response);
      && r.server == s.(phase := Idle, socket := id)
      && r.cmds == [Commands.Create, Commands.Listen(id, s.port)]
      && r.ret == 1 && Answered(replies[..r.calls]) == 4
  {
    DriveIgnoresPolls(s.(phase := CreateSocket), replies);
    BeginSucceeds(s, Answers(replies));
  }

  /** `BeginCreateFails` with not-ready polls anywhere. */
  lemma BeginCreateFailsAnyPolls(s: Server, replies: seq<Reply>)
    requires s.synch
    requires var a := Answers(replies);
      && |a| >= 2 && (a[1].readiness > 1 || !(CreatedPrefix <= a[1].response))
    ensures var r := Begin(s, replies);
      && r.server == s.(phase := Idle)
      && r.cmds == [Commands.Create]
      && r.ret == Answers(replies)[1].readiness && Answered(replies[..r.calls]) == 2
  {
    DriveIgnoresPolls(s.(phase := CreateSocket), replies);
    BeginCreateFails(s, Answers(replies));
  }

  /** `BeginListenFails` with not-ready polls anywhere. */
  lemma BeginListenFailsAnyPolls(s: Server, replies: seq<Reply>)
    requires s.synch
    requires var a := Answers(replies);
      && |a| >= 6 && a[1].readiness == 1 && CreatedPrefix <= a[1].response
      && a[3].readiness > 1
    ensures var a := Answers(replies);
      var r, id := Begin(s, replies), TrailingId(a[1].response);
      && r.server == s.(phase := Idle, socket := NoSocket)
      && r.cmds == [Commands.Create, Commands.Listen(id, s.port), Commands.Close(id)]
      && r.ret == a[5].readiness && Answered(replies[..r.calls]) == 6
  {
    DriveIgnoresPolls(s.(phase := CreateSocket), replies);
    BeginListenFails(s, Answers(replies));
  }

  // ---------------------------------------------------------------------
  // Stop

  /** Stopping twice is stopping once: the second call sends nothing. */
  lemma StopIdempotent(s: Server)
    ensures Stop(Stop(s).server) == Effect(Stop(s).server, None)
  {
  }

  /** After stopping an active server, no connection is available and a
      write reaches nobody, whatever the child table still holds. */
  lemma StopDisablesQueries(s: Server, hasData: int -> bool, buf: seq<Byte>,
                            clientWrite: (int, seq<Byte>) -> Size)
    requires s.socket >= 0
    ensures Available(Stop(s).server, hasData).socket == NoSocket
    ensures WriteTotal(Stop(s).server, buf, clientWrite) == 0
  {
  }

  // ---------------------------------------------------------------------
  // Notifications

  /** An accept notification fills the first free slot with the named
      socket, marked accepted, and leaves a full table unchanged. With room
      and a real id, exactly one more slot is occupied. */
  lemma {:induction false} UrcAccept(s: Server, urc: string)
    requires AcceptPrefix <= urc
    ensures var t, t' := s.children, HandleUrc(s, urc).children;
      && (forall i :: IsFirst(t, IsFree, i) ==> t' == t[i := Child(AcceptedId(urc), true)])
      && ((forall i :: 0 <= i < |t| ==> IsOccupied(t[i])) ==> t' == t)
      && ((exists i :: 0 <= i < |t| && IsFree(t[i])) && AcceptedId(urc) != NoSocket ==>
            OccupiedCount(t') == OccupiedCount(t) + 1)
  {
    var t := s.children;
    var t' := HandleUrc(s, urc).children;
    if exists i :: 0 <= i < |t| && IsFree(t[i]) {
      var k := Find(t, IsFree).value;
      CountUpdate(t, k, Child(AcceptedId(urc), true), IsOccupied);
    }
  }

  /** A close notification frees the first slot holding the named socket;
      for an unknown id nothing changes. For a real id that is present,
      exactly one slot fewer is occupied. */
  lemma {:induction false} UrcClose(s: Server, urc: string)
    requires ClosedPrefix <= urc
    ensures var t, t', id := s.children, HandleUrc(s, urc).children, TrailingId(urc);
      && (forall i :: 0 <= i < |t| && t[i].socket == id
                      && (forall j :: 0 <= j < i ==> t[j].socket != id)
                      ==> t' == t[i := FreeSlot])
      && ((forall i :: 0 <= i < |t| ==> t[i].socket != id) ==> t' == t)
      && ((exists i :: 0 <= i < |t| && t[i].socket == id) && id != NoSocket ==>
            OccupiedCount(t') == OccupiedCount(t) - 1)
  {
    var t := s.children;
    var id := TrailingId(urc);
    assert !(AcceptPrefix <= urc) by { assert urc[5] != AcceptPrefix[5]; }
    if exists i :: 0 <= i < |t| && t[i].socket == id {
      var k := Find(t, (c: Child) => c.socket == id).value;
      CountUpdate(t, k, FreeSlot, IsOccupied);
    }
  }

  /** Notifications keep "accepted only while occupied", except for an
      accept whose id character is '/', which yields the id -1. */
  lemma UrcKeepsPendingInvariant(s: Server, urc: string)
    requires PendingOnlyWhenOccupied(s.children)
    requires AcceptPrefix <= urc ==> AcceptedId(urc) != NoSocket
    ensures PendingOnlyWhenOccupied(HandleUrc(s, urc).children)
  {
  }

  /** `GSMServer.cpp` does not check for a digit: "+UUSOLI: /" stores the id -1
      marked accepted in a free slot, a slot the table still counts as free. */
  lemma AcceptSlashMarksFreeSlot(s: Server)
    requires |s.children| >= 1 && IsFree(s.children[0])
    ensures var t' := HandleUrc(s, "+UUSOLI: /").children;
      t'[0] == Child(NoSocket, true) && !PendingOnlyWhenOccupied(t')
  {
  }

  /** `GSMServer.cpp` does not deduplicate: two accept notifications for the
      same socket occupy two slots with that id. */
  lemma AcceptDoesNotDeduplicate(s: Server)
    requires |s.children| >= 2 && IsFree(s.children[0]) && IsFree(s.children[1])
    ensures var t' := HandleUrc(HandleUrc(s, "+UUSOLI: 3"), "+UUSOLI: 3").children;
      t'[0] == Child(3, true) && t'[1] == Child(3, true)
  {
  }

  // ---------------------------------------------------------------------
  // Available

  /** The pending flag is cleared exactly once: when a pending accept
      exists, the selected slot loses its flag, nothing else changes, and
      one fewer slot is pending; otherwise the table is unchanged. */
  lemma {:induction false} AvailableClearsOnePending(s: Server, hasData: int -> bool)
    requires s.socket != NoSocket
    ensures var t, r := s.children, Available(s, hasData);
      && ((exists i :: 0 <= i < |t| && IsPending(t[i])) ==>
            && PendingCount(r.table) == PendingCount(t) - 1
            && OccupiedCount(r.table) == OccupiedCount(t)
            && forall i :: 0 <= i < |t| && r.table[i] != t[i] ==>
                 r.table[i] == Child(t[i].socket, false) && t[i].socket == r.socket)
      && ((forall i :: 0 <= i < |t| ==> !IsPending(t[i])) ==> r.table == t)
  {
    var t := s.children;
    if exists i :: 0 <= i < |t| && IsPending(t[i]) {
      var k := Find(t, IsPending).value;
      var c := Child(t[k].socket, false);
      CountUpdate(t, k, c, IsPending);
      CountUpdate(t, k, c, IsOccupied);
    }
  }

  /** A connection handed out as a fresh accept is not handed out as fresh
      again: the next call finds its slot no longer pending. */
  lemma AvailableNoRepeatFresh(s: Server, hasData: int -> bool, i: int)
    requires s.socket != NoSocket
    requires IsFirst(s.children, IsPending, i)
    ensures var r := Available(s, hasData);
      r.socket == s.children[i].socket && !IsPending(r.table[i])
  {
  }

  /** Fresh accepts take priority over connections with data: the first
      pending slot is selected even when an earlier slot has data. */
  lemma AvailablePrefersPending(s: Server, hasData: int -> bool, i: int, j: int)
    requires s.socket != NoSocket
    requires IsFirst(s.children, IsPending, i)
    requires 0 <= j < |s.children| && HasData(hasData, s.children[j]) && !IsPending(s.children[j])
    ensures Available(s, hasData).socket == s.children[i].socket
  {
  }

  /** Selection keeps "accepted only while occupied". */
  lemma AvailableKeepsPendingInvariant(s: Server, hasData: int -> bool)
    requires PendingOnlyWhenOccupied(s.children)
    ensures PendingOnlyWhenOccupied(Available(s, hasData).table)
  {
  }

  // ---------------------------------------------------------------------
  // Write

  lemma {:induction false} WrittenNoOccupied(t: Table, buf: seq<Byte>,
                                             clientWrite: (int, seq<Byte>) -> Size)
    requires forall i :: 0 <= i < |t| ==> IsFree(t[i])
    ensures Written(t, buf, clientWrite) == 0
    decreases |t|
  {
    if |t| > 0 {
      WrittenNoOccupied(t[..|t| - 1], buf, clientWrite);
    }
  }

  /** A write with no listening socket, or with no occupied child, writes
      nothing and reports 0. */
  lemma WriteNothingToWrite(s: Server, buf: seq<Byte>, clientWrite: (int, seq<Byte>) -> Size)
    requires s.socket == NoSocket || OccupiedCount(s.children) == 0
    ensures WriteTotal(s, buf, clientWrite) == 0
  {
    if s.socket != NoSocket {
      CountZero(s.children, IsOccupied);
      WrittenNoOccupied(s.children, buf, clientWrite);
    }
  }

  // ---------------------------------------------------------------------
  // Scenarios

  /** The close notification for socket 3 releases that socket: its text
      does not also carry the accept prefix. */
  lemma CloseUrcText(s: Server)
    ensures HandleUrc(s, "+UUSOCL: 3") == s.(children := Release(s.children, 3))
  {
    assert !(AcceptPrefix <= "+UUSOCL: 3") by { assert "+UUSOCL: 3"[5] != AcceptPrefix[5]; }
    assert ClosedPrefix <= "+UUSOCL: 3";
  }

  ghost predicate AllFree(t: Table) {
    forall i :: 0 <= i < |t| ==> t[i] == FreeSlot
  }

  lemma ScenarioAcceptStage(s: Server)
    requires 1 <= |s.children| && AllFree(s.children)
    ensures HandleUrc(s, "+UUSOLI: 3").children == s.children[0 := Child(3, true)]
  {
  }

  lemma ScenarioServeStage(s: Server, empty: Table, hasData: int -> bool)
    requires 1 <= |empty| && AllFree(empty)
    requires s.socket != NoSocket && !hasData(3)
    requires s.children == empty[0 := Child(3, true)]
    ensures var t2 := empty[0 := Child(3, false)];
      && Available(s, hasData) == Selection(t2, 3)
      && Available(s.(children := t2), hasData).socket == NoSocket
  {
  }

  lemma ScenarioCloseStage(s: Server, empty: Table, later: int -> bool)
    requires 1 <= |empty| && AllFree(empty)
    requires s.children == empty[0 := Child(3, false)]
    ensures HandleUrc(s, "+UUSOCL: 3").children == empty
    ensures Available(s.(children := empty), later).socket == NoSocket
  {
    CloseUrcText(s);
    assert s.children[0 := FreeSlot] == empty;
    assert forall i :: 0 <= i < |empty| ==> !IsPending(empty[i]) && !HasData(later, empty[i]);
  }

  /** A server listening on socket 7 with an empty table, whose client
      reports no data for socket 3: an accept for socket 3 is handed out once
      as fresh, and after the close notification the table is empty again
      and no connection is available whatever the client reports. */
  lemma AcceptServeCloseScenario(s: Server, hasData: int -> bool, later: int -> bool)
    requires s.socket == 7 && |s.children| == MaxChildSockets && AllFree(s.children)
    requires !hasData(3)
    ensures var s1 := HandleUrc(s, "+UUSOLI: 3");
      && s1.children[0] == Child(3, true)
      && var a1 := Available(s1, hasData);
      && a1.socket == 3
      && var s2 := s1.(children := a1.table);
      && Available(s2, hasData).socket == NoSocket
      && var s3 := HandleUrc(s2, "+UUSOCL: 3");
      && s3.children == s.children
      && Available(s3, later).socket == NoSocket
  {
    var t := s.children;
    ScenarioAcceptStage(s);
    var s1 := HandleUrc(s, "+UUSOLI: 3");
    ScenarioServeStage(s1, t, hasData);
    var s2 := s1.(children := t[0 := Child(3, false)]);
    ScenarioCloseStage(s2, t, later);
  }

  /** Port 80: the modem answers "+USOCR: 7", so the server listens with
      the text "AT+USOLI=7,80" and settles with listening socket 7. */
  lemma BeginPort80Scenario(s: Server)
    requires s.synch && s.port == 80
    ensures var replies := [Reply(1, ""), Reply(1, "+USOCR: 7"), Reply(1, ""), Reply(1, "")];
      var r := Begin(s, replies);
      && r.server.socket == 7 && r.server.phase == Idle
      && |r.cmds| == 2
      && Commands.Render(r.cmds[0]) == "AT+USOCR=6"
      && Commands.Render(r.cmds[1]) == "AT+USOLI=7,80"
  {
    var replies := [Reply(1, ""), Reply(1, "+USOCR: 7"), Reply(1, ""), Reply(1, "")];
    assert CreatedPrefix <= replies[1].response;
    assert TrailingId(replies[1].response) == 7;
    BeginSucceeds(s, replies);
    assert IntToString(7) == "7";
    assert IntToString(80) == "80" by {
      assert NatToString(80) == NatToString(8) + [DigitChar(0)];
    }
  }

  /** The same successful `begin()` with the modem still busy once after
      the create command and once after the listen command: the two
      not-ready polls add two calls and change nothing else. */
  lemma BeginSucceedsAfterPolls(s: Server, replies: seq<Reply>)
    requires s.synch && |replies| >= 6
    requires replies[1].readiness == 0 && replies[4].readiness == 0
    requires replies[0].readiness == 1 && replies[2].readiness == 1
    requires replies[3].readiness == 1 && replies[5].readiness == 1
    requires CreatedPrefix <= replies[2].response
    ensures var id := TrailingId(replies[2].response);
      Begin(s, replies) == Run(
        s.(phase := Idle, socket := id),
        [Commands.Create, Commands.Listen(id, s.port)], 6, 1)
  {
    var id := TrailingId(replies[2].response);
    var s0 := s.(phase := CreateSocket);
    var s1 := s0.(phase := WaitCreateSocket);
    var s3 := s0.(phase := ListenSocket, socket := id);
    var s4 := s3.(phase := WaitListen);
    var done := s.(phase := Idle, socket := id);
    assert s4.(phase := Idle) == done;
    assert replies[5..][0] == replies[5];
    assert Drive(s4, replies[5..]) == Run(done, [], 1, 1);
    DriveSkipsNotReady(s4, replies, 4);
    assert Drive(s4, replies[4..]) == Run(done, [], 2, 1);
    DriveListenStep(s3, replies, 3);
    assert Drive(s3, replies[3..]) == Run(done, [Commands.Listen(id, s.port)], 3, 1);
    DriveWaitCreateStep(s1, replies, 2);
    assert Drive(s1, replies[2..]) == Run(done, [Commands.Listen(id, s.port)], 4, 1);
    DriveSkipsNotReady(s1, replies, 1);
    assert Drive(s1, replies[1..]) == Run(done, [Commands.Listen(id, s.port)], 5, 1);
    DriveCreateStep(s0, replies, 0);
    assert replies[0..] == replies;
  }
}

=== FILE: wrappers.dfy ===
/** The optional-value datatype used across the model. */
module Wrappers {

  /** `None` stands for "not found" or "not sent"; `Some` carries the value. */
  datatype Option<+T> = None | Some(value: T)
}
